=== FILE: README.md ===
# macdrun signal cores in Dafny

This project models the two decision cores of the macdrun trading-alert bot.
Both sit on top of indicator columns that pandas has already computed (MACD,
its signal line, RSI, VWAP, trend and volume flags).

- **The MACD reversal recognizer** (`check_macd_pattern` in main.py). Each
  polling cycle it looks at the last candle of a symbol's 15-minute frame. It
  walks a per-symbol record up a five-stage ladder over one below-zero MACD
  excursion: peak, drop of 0.012 to a valley, rise of 0.004, second drop of
  0.007, and a final rise of 0.010 with MACD above its signal line and RSI
  below 65. The final step emits a BUY alert and opens a trade. The trade is
  closed with an EXIT alert when MACD falls under its signal line, or when
  MACD falls from the previous candle while RSI is above 55. A frame that is
  missing or shorter than 20 candles leaves the record alone. An undefined
  (NaN) value or a non-negative MACD on the last candle resets the record.
  Modules `MacdPattern` (macd_pattern.dfy) and `MacdAsWritten`
  (macd_as_written.dfy).
- **The stateless signal scan** (`detect_signals` in job.py). It walks
  indices 5 to len-1 of a frame and records LONG or SHORT at each candle that
  meets the entry filters, judging only that candle's row and the previous
  candle's MACD. `main` then sends only the last recorded signal of each
  symbol (`signals[-1:]`). Modules `SignalScan` (signal_scan.dfy) and
  `JobDispatch` (job_dispatch.dfy).

NaN entries of the indicator columns are `None` (`Wrappers.Option`). As in
Python, every comparison with them is false (`NanCompare`). The per-symbol table is an
explicit `map<string, State>` passed in and returned. It is not global
state. In main.py the fetched frame is a parameter, and `None` means the
fetch failed (main.py:41-48 catches the error and returns `None`).
Alerts are returned as values and are not sent anywhere.

Points where the code's behaviour is easy to misread, modelled as the code
does it:

- A BUY does not move the record back to stage 0 by itself. Unless the
  exit rule fires in the same call (main.py:87-93), the record stays at
  stage 5 with the trade open until an exit or a reset.
- A reset (undefined value or MACD >= 0) clears an open trade without
  emitting an EXIT alert (`ResetDropsTradeSilently`).
- BUY and EXIT can both fire in the same call of `check_macd_pattern`
  (`SameCallBuyAndExit`): the exit test at main.py:86-93 runs right after
  the BUY at main.py:81-84, on the same candle.
- `check_macd_pattern` tracks only the one below-zero ladder. It reads only
  the last candle's MACD, signal line and RSI and the previous candle's MACD.
- job.py uses `isBearishTrend` as the trend filter for both LONG and SHORT
  (job.py:64, 66). It binds the `signal` column (job.py:50) but never uses it, nor its own
  `bullState`/`bearState` variables.
- A reset stores a record that cannot be read back (see Findings). The rest
  of the model resets to the full initial record.

## Model

| member | source | states |
|---|---|---|
| MacdPattern.InitialIsValid | main.py:65 | The default record (stage 0, no anchors, no trade) satisfies the reachability invariant: stage within 0..5, the k-th anchor is set once stage k is reached, and a trade is open exactly in stage 5. |
| MacdPattern.ValidReadsCurrentAnchor | main.py:69-84 | Every record reachable from the initial one has set the anchor that its current stage's comparison reads, so the `TypeError` on an unset anchor never happens. |
| MacdPattern.Advance | main.py:68-84 | The entry ladder moves the stage up by exactly one when the current stage's guard holds, and otherwise changes nothing. Stage 0 always moves to 1 and records `peak = macd`. Each anchor is written only by its own transition. BUY is emitted, and `in_trade` set, only on 4->5, when MACD is above secondValley + 0.010, above the signal line, and RSI is below 65. Stage 5 has no way up. The invariant is preserved. |
| MacdPattern.Step | main.py:68-93 | Ladder then exit rule. BUY is emitted iff the 4->5 guard holds. EXIT is emitted iff a trade is open after the ladder and MACD is under the signal line, or below a defined previous MACD with RSI above 55. After an EXIT the stage is 0 and no trade is open. Alerts are [], [BUY], [EXIT] or [BUY, EXIT], in that order. The stage stays, moves up one, or drops to 0. The anchor of the transition taken records the current MACD, and the other anchors are kept, including by the exit. |
| MacdPattern.CheckSymbol | main.py:53-106 | A missing frame or one shorter than 20 candles leaves the record unwritten and emits nothing. A last candle with undefined MACD, signal or RSI, or with MACD >= 0, writes the initial record and emits nothing. Any alert needs a usable frame and a qualifying last candle. BUY needs prior stage 4. EXIT needs an open trade and leaves stage 0 with no trade. Valid records stay valid. For a usable frame with a qualifying last candle, the written record and the alerts are exactly those of `Step` on the last candle's MACD, signal and RSI with the previous candle's MACD (`macd[i-1]`), so `Step`'s BUY and EXIT if-and-only-if clauses hold of the call. |
| MacdPattern.CheckMacdPattern | main.py:51-106 | On the per-symbol table: a skipped frame changes nothing. A reset stores the initial record under the symbol. Only the evaluated symbol's entry may change or be added. The invariant of that entry is kept. For a usable frame with a qualifying last candle, the stored record and the alerts are those of `Step` on the last candle with the previous candle's MACD, starting from the symbol's saved record (or the initial one). |
| MacdPattern.RunCycle | main.py:109-113 | One pass of the bot loop over the configured symbols keeps every record valid. It never touches symbols outside the batch. Its alerts name only symbols of the batch. |
| MacdPattern.RunCycleAlerts | main.py:109-113 | Over a batch of distinct symbols, the alerts one pass files under each symbol are exactly, and in order, those of that symbol's own `check_macd_pattern` call. |
| MacdPattern.RunCycleIndependent | main.py:109-113 | Symbols never interact: over a batch of distinct symbols (the `SYMBOLS` list at main.py:15), each symbol's record after the pass is what its own `check_macd_pattern` call alone would leave. |
| MacdPattern.RunSymbol | main.py:109-113 | Repeated cycles of one symbol keep its record valid. |
| MacdPattern.CycleBalance | main.py:81-93 | In one evaluation, EXITs emitted plus the trade left open never exceed BUYs emitted plus the trade open before. |
| MacdPattern.ExitsNeverOutnumberBuys | main.py:81-93 | Over any sequence of cycles, EXIT alerts never outnumber BUY alerts plus the trade open at the start. |
| MacdPattern.NoBuyWhileInTrade | main.py:81-84 | While a trade is open, no evaluation emits another BUY. |
| MacdPattern.SameCallBuyAndExit | main.py:81-93 | BUY and EXIT come out of one call exactly when the 4->5 guard holds, the previous MACD is defined and higher, and RSI is above 55. |
| MacdPattern.ResetDropsTradeSilently | main.py:61-63 | An open trade is discarded by a reset with no EXIT alert. |
| MacdPattern.ResetRestartsLadder | main.py:61-71 | After a reset, the next usable frame whose last MACD, signal and RSI are defined, with MACD below zero, starts a fresh ladder: stage 1, the peak recorded, no alert. |
| MacdPattern.ReversalExample | main.py:61-93 | The walk-through MACD -0.02, -0.04, -0.02, -0.035, -0.01 (signal -0.03 for the first four candles and -0.02 for the fifth, RSI 40) climbs one stage per candle and emits one BUY on the fifth candle. A following MACD of 0.015 resets the record. |
| MacdAsWritten.Load | main.py:65-66 | Reading a symbol's saved record fails exactly when it is the two-key reset record. An absent record reads as the initial one. |
| MacdAsWritten.CheckAsWritten | main.py:53-106 | As written: skips leave the table alone. A reset stores the two-key record. The call raises exactly when it gets past the guards and finds a two-key record. When it gets past the guards and does not raise, it stores and emits exactly what `Step` gives on the last candle from the loaded record, as the corrected `CheckMacdPattern` does, so the two differ only in the reset record. |
| MacdAsWritten.AsWrittenKeepsValid | main.py:53-106 | The tables the code as written fills keep every six-key record valid: the empty table qualifies and every call that does not raise keeps it so. Every such table meets `CheckAsWritten`'s requirement, so the only raise left is the unpack error. |
| MacdAsWritten.ResetThenNegativeMacdRaises | main.py:61-66 | As written, a reset followed by any usable frame whose last candle has MACD, signal and RSI defined and MACD below zero raises on the second call. |
| SignalScan.SignalsAt | job.py:60-71 | At one index the scan records LONG iff LONG's conditions hold there, SHORT iff SHORT's do, and nothing otherwise. |
| SignalScan.NeverBoth | job.py:63-66 | LONG and SHORT never both qualify at one index, because the MACD sign conditions exclude each other. |
| SignalScan.ScanSound | job.py:59-71 | Every recorded signal has an index in 5..n-1, that candle's timestamp, and a side whose conditions hold at that index. |
| SignalScan.RecordedWhenFires | job.py:59-71 | A candle in 5..n-1 that meets a side's conditions is recorded with that side and its timestamp. |
| SignalScan.ScanComplete | job.py:59-71 | Every candle in 5..n-1 that meets a side's conditions is recorded for that side. |
| SignalScan.ScanExact | job.py:59-71 | A candle in 5..n-1 is recorded for a side iff it meets that side's conditions. |
| SignalScan.ScanIncreasing | job.py:59-71 | Signals are appended in strictly increasing index order. |
| SignalScan.ScanLength | job.py:59-71 | At most len - 5 signals are recorded. |
| SignalScan.ScanPrefixStable | job.py:58-66 | The scan is stateless: candles appended later never change the signals already found for earlier indices. |
| SignalScan.ScanCharacterized | job.py:47-72 | The reference scan lists exactly the qualifying candles, in increasing index order, and at most len - 5 of them. |
| SignalScan.CharacterizationUnique | job.py:47-72 | Two signal lists that both list exactly the qualifying candles in increasing index order are equal, so that description pins the output down. |
| SignalScan.RecordAt | job.py:60-71 | One iteration of the loop, with its nested entry tests and the LONG-then-SHORT appends, appends exactly the signals that index i qualifies for. |
| SignalScan.DetectSignals | job.py:47-72 | The loop over indices 5..len-1 appends exactly what the reference scan appends, so by `ScanCharacterized` it returns the qualifying candles and nothing else, in increasing index order. |
| SignalScan.LastSignal | job.py:84 | `signals[-1:]` has at most one element. It is empty iff the list is empty. Otherwise it holds the last signal. |
| SignalScan.NothingSentIffNoneQualifies | job.py:59-84 | Nothing is sent for a symbol iff no candle in 5..len-1 meets either side's conditions. |
| SignalScan.SentIsLatest | job.py:59-84 | The signal sent for a symbol is a qualifying candle with its timestamp and side, and no later candle qualifies for either side. |
| JobDispatch.ScannedEntry | job.py:80-83 | Each configured symbol keeps its name and position and is paired with the scan of its own frame. |
| JobDispatch.DispatchLength | job.py:79-85 | A run sends at most one message per symbol. |
| JobDispatch.DispatchSlots | job.py:79-85 | Every message belongs to a symbol of the list. |
| JobDispatch.DispatchOrdered | job.py:79-85 | Messages go out in the order of the symbol list, so no symbol gets two. |
| JobDispatch.DispatchAnnounces | job.py:79-85 | Each message carries its symbol's name and the last signal of that symbol's list. |
| JobDispatch.EveryFindingSent | job.py:79-85 | Every symbol whose list holds a signal has the last of them sent. |
| JobDispatch.DispatchPrefix | job.py:79-85 | Symbols later in the list never change or reorder the messages of the earlier ones. |
| JobDispatch.JobMain | job.py:79-85 | The loop over symbols, calling the scan on each frame, sends exactly the reference dispatch of the scanned lists: by `DispatchLength`, `DispatchOrdered`, `DispatchAnnounces` and `EveryFindingSent`, the last signal of each symbol that has one, in list order, and nothing else. |

## Findings

| source | as written | input that shows it | evidently intended | confidence | as-written member | corrected member |
|---|---|---|---|---|---|---|
| main.py:62 | A reset stores `{'state': 0, 'in_trade': False}`. The next call that gets past the guards unpacks six values from the stored record (main.py:66), which raises `ValueError` for a two-key record. The exception also ends the bot's polling thread. | A usable frame whose last MACD is >= 0 (or NaN), then a usable frame whose last MACD, signal and RSI are defined with MACD < 0 | Reset to the full initial record (stage 0, no anchors, no trade), so the next negative MACD starts a fresh ladder | high; not executed | MacdAsWritten.AsWrittenKeepsValid | main.py:53-106 | The tables the code as written fills keep every six-key record valid: the empty table qualifies and every call that does not raise keeps it so. Every such table meets `CheckAsWritten`'s requirement, so the only raise left is the unpack error. |
| MacdAsWritten.ResetThenNegativeMacdRaises | MacdPattern.ResetRestartsLadder |

## Left out

- Indicator computation (`compute_indicators`, main.py:30-37; `calculate_indicators`, job.py:25-45). These are pandas `ewm`/`rolling`/`cumsum` numerics, taken here as given columns with NaN as `None`.
- Floating point: MACD, RSI and the thresholds are exact reals. A float64 rounding at a threshold boundary could flip a comparison that the model decides exactly.
- Market-data fetching through ccxt (main.py:19, 40-48; job.py:17-23). This is network I/O. The fetched frame is a parameter. In main.py a failed fetch is caught and becomes `None`. In job.py neither `fetch_ohlcv` nor `send_telegram` catches errors, so such an error ends `main` and the later symbols are neither scanned nor sent.
- Telegram delivery (main.py:22-27; job.py:74-77). This is HTTP I/O. Alerts are returned as values, and the message text is not modelled.
- The Flask keep-alive route, the daemon thread, the `time.sleep` loop and the debug `print` (main.py:96, 109-124). These are scheduling, concurrency and logging. `RunCycle` models one pass of the loop body.
- Environment and configuration reads (main.py:13-17; job.py:7-15). The symbol lists are parameters.
- The timestamp column of job.py is an opaque integer. The `LONG`/`SHORT` strings are the `Side` values.
- `SignalScan.Signal` carries the candle's index besides job.py's `(timestamp, side)` pair (job.py:69, 71). The index states where a signal comes from. The timestamp and side are what the code keeps.
- The `macd` and `close` columns of job.py are reals with no NaN. `close` is raw price data, and `ewm(adjust=False)` (job.py:26-29) has no warm-up NaN, so MACD is defined at every candle once the prices are. The RSI and VWAP columns can be NaN and are `Option`s.
- MacdAsWritten.CheckAsWritten: requires the symbol's saved six-key record to have the anchor its stage reads, as `CheckMacdPattern` does. The `TypeError` an unset anchor would raise (main.py:72-81) is therefore not modelled. `AsWrittenKeepsValid` shows that every table this code fills meets the requirement.
- MacdPattern.Advance: requires that the anchor read by the current stage is set, for the reason given for `Step`.
- MacdPattern.RunCycle: requires every stored record to be valid. The bot's table starts empty and `CheckMacdPattern` keeps every entry valid, so every table the loop can see meets it.
- MacdPattern.RunSymbol: requires the starting record to be valid, for the reason given for `RunCycle`.
- MacdPattern.Step: requires that the anchor read by the current stage is set. In Python an unset anchor at that point raises `TypeError`. `Valid` rules it out for every record reachable from the initial one: `InitialIsValid` and the `Valid` clauses of the operations show that records stay valid, and `ValidReadsCurrentAnchor` shows that a valid record meets the requirement.
- MacdPattern.CheckSymbol: requires that the anchor read by the current stage is set, for the reason given for `Step`.
- MacdPattern.CheckMacdPattern: requires that the anchor read by the symbol's current stage is set, for the reason given for `Step`.
- JobDispatch.JobMain: models the run in which no fetch or delivery raises. An error from `fetch_ohlcv` or `send_telegram` (job.py:17-23, 74-77) ends the real loop early, and the model does not describe that run. The model also assumes `calculate_indicators` returns normally. Its `x[-1]` on a `raw=False` rolling window (job.py:41) is a label lookup on an integer index, which likely raises `KeyError` on every frame. This was not executed, and that function is not part of this model.
- JobDispatch.EveryFindingSent: likewise describes only the run in which no fetch or delivery raises.
- The notice text (`f"{signal} signal for {name} at {timestamp}"`) is not built. A `JobDispatch.Notice` carries the symbol's position, its name and the signal instead.

=== FILE: job_dispatch.dfy ===
/**
 * The job's main loop (job.py): every configured symbol is scanned and at
 * most the last signal of each scan is handed to the notifier.
 */
module JobDispatch {
  import opened SignalScan

  /** A message handed to the notifier: the symbol's position in the list, its name and the signal. */
  datatype Notice = Notice(slot: nat, name: string, signal: Signal)

  /** A symbol's name with the signal list its scan produced. */
  type Found = (string, seq<Signal>)

  /** What one symbol contributes: the last signal of its list, if any, as a message. */
  function NoticeOf(slot: nat, entry: Found): seq<Notice> {
    var last := LastSignal(entry.1);
    if last == [] then [] else [Notice(slot, entry.0, last[0])]
  }

  /** Reference definition: the messages of the symbols, in list order. */
  function Dispatch(found: seq<Found>): seq<Notice>
    decreases |found|
  {
    if found == [] then []
    else
      var k := |found| - 1;
      Dispatch(found[..k]) + NoticeOf(k, found[k])
  }

  /** The scan result of every symbol, in list order. */
  function Scanned(symbols: seq<(string, seq<Row>)>): (r: seq<Found>)
    ensures |r| == |symbols|
    decreases |symbols|
  {
    if symbols == [] then []
    else
      var k := |symbols| - 1;
      Scanned(symbols[..k]) + [(symbols[k].0, Scan(symbols[k].1, |symbols[k].1|))]
  }

  /** Each symbol keeps its name and slot and is paired with its own scan. */
  lemma {:induction false} ScannedEntry(symbols: seq<(string, seq<Row>)>, q: nat)
    requires q < |symbols|
    ensures Scanned(symbols)[q] == (symbols[q].0, Scan(symbols[q].1, |symbols[q].1|))
    decreases |symbols|
  {
    var k := |symbols| - 1;
    if q < k {
      assert symbols[..k][q] == symbols[q];
      ScannedEntry(symbols[..k], q);
    }
  }

  /** The messages of a leading part of the list are a prefix of all the messages. */
  lemma {:induction false} DispatchPrefix(found: seq<Found>, m: nat)
    requires m <= |found|
    ensures Dispatch(found[..m]) <= Dispatch(found)
    decreases |found|
  {
    if m < |found| {
      var k := |found| - 1;
      assert found[..k][..m] == found[..m];
      DispatchPrefix(found[..k], m);
      assert Dispatch(found) == Dispatch(found[..k]) + NoticeOf(k, found[k]);
    } else {
      assert found[..m] == found;
    }
  }

  /** Every symbol whose scan found a signal has the last of its signals sent. */
  lemma EveryFindingSent(found: seq<Found>, q: nat)
    requires q < |found| && found[q].1 != []
    ensures Notice(q, found[q].0, LastSignal(found[q].1)[0]) in Dispatch(found)
  {
    var upto := found[..q + 1];
    assert upto[..q] == found[..q];
    var prior := Dispatch(found[..q]);
    assert Dispatch(upto) == prior + [Notice(q, found[q].0, LastSignal(found[q].1)[0])];
    DispatchPrefix(found, q + 1);
    assert Dispatch(found)[|prior|] == Dispatch(upto)[|prior|];
  }

  /** At most one message per symbol. */
  lemma {:induction false} DispatchLength(found: seq<Found>)
    ensures |Dispatch(found)| <= |found|
    decreases |found|
  {
    if found != [] {
      DispatchLength(found[..|found| - 1]);
    }
  }

  /** Every message names a slot of the symbol list. */
  lemma {:induction false} DispatchSlots(found: seq<Found>)
    ensures forall j :: 0 <= j < |Dispatch(found)| ==> Dispatch(found)[j].slot < |found|
    decreases |found|
  {
    if found != [] {
      var k := |found| - 1;
      DispatchSlots(found[..k]);
      assert Dispatch(found) == Dispatch(found[..k]) + NoticeOf(k, found[k]);
    }
  }

  /** Messages go out in slot order, so no symbol is messaged twice. */
  lemma {:induction false} DispatchOrdered(found: seq<Found>)
    ensures forall j, l :: 0 <= j < l < |Dispatch(found)| ==> Dispatch(found)[j].slot < Dispatch(found)[l].slot
    decreases |found|
  {
    if found != [] {
      var k := |found| - 1;
      DispatchOrdered(found[..k]);
      DispatchSlots(found[..k]);
      var prior: seq<Notice>, here: seq<Notice> := Dispatch(found[..k]), NoticeOf(k, found[k]);
      assert Dispatch(found) == prior + here;
      forall j, l | 0 <= j < l < |prior + here| ensures (prior + here)[j].slot < (prior + here)[l].slot {
        if l >= |prior| {
          assert (prior + here)[l] == here[0];
        }
      }
    }
  }

  /** `n` is the message for the symbol in its slot: its name and the last signal of its list. */
  predicate Announces(found: seq<Found>, n: Notice) {
    n.slot < |found| && n.name == found[n.slot].0 && LastSignal(found[n.slot].1) == [n.signal]
  }

  /** Each message carries its symbol's name and the last signal of that symbol's list. */
  lemma {:induction false} DispatchAnnounces(found: seq<Found>)
    ensures forall j :: 0 <= j < |Dispatch(found)| ==> Announces(found, Dispatch(found)[j])
    decreases |found|
  {
    if found != [] {
      var k := |found| - 1;
      DispatchAnnounces(found[..k]);
      var prior: seq<Notice>, here: seq<Notice> := Dispatch(found[..k]), NoticeOf(k, found[k]);
      assert Dispatch(found) == prior + here;
      forall j | 0 <= j < |prior| ensures Announces(found, prior[j]) {
        assert Announces(found[..k], prior[j]);
      }
    }
  }

  /** One more symbol adds its own message, if any, after the earlier ones. */
  lemma DispatchStep(symbols: seq<(string, seq<Row>)>, k: nat)
    requires k < |symbols|
    ensures Dispatch(Scanned(symbols[..k + 1]))
      == Dispatch(Scanned(symbols[..k])) + NoticeOf(k, (symbols[k].0, Scan(symbols[k].1, |symbols[k].1|)))
  {
    assert symbols[..k + 1][..k] == symbols[..k];
    var found := Scanned(symbols[..k + 1]);
    assert found[..k] == Scanned(symbols[..k]);
  }

  /**
   * job.py's `main`: every symbol in turn, sending at most the last signal
   * of its scan.
   */
  method JobMain(symbols: seq<(string, seq<Row>)>) returns (sent: seq<Notice>)
    ensures sent == Dispatch(Scanned(symbols))
  {
    sent := [];
    var k := 0;
    while k < |symbols|
      invariant k <= |symbols|
      invariant sent == Dispatch(Scanned(symbols[..k]))
    {
      var name, rows := symbols[k].0, symbols[k].1;
      var signals := DetectSignals(rows);
      var last := LastSignal(signals);
      DispatchStep(symbols, k);
      if last != [] {
        sent := sent + [Notice(k, name, last[0])];
      }
      k := k + 1;
    }
    assert symbols[..k] == symbols;
  }
}

=== FILE: macd_as_written.dfy ===
/**
 * main.py's per-symbol table as the code actually fills it. A reset
 * (main.py:62) saves a record with only the `state` and `in_trade` keys,
 * while the next evaluation that gets past the guards (main.py:66) unpacks
 * six values from whatever record is saved, which raises a ValueError for
 * the two-key record. The rest of the model saves the full initial record
 * on reset instead (`MacdPattern.CheckMacdPattern`).
 */
module MacdAsWritten {
  import opened Wrappers
  import opened MacdPattern

  /** A saved record: the six-key record of a completed evaluation, or the two-key reset record. */
  datatype Saved = Full(state: State) | ResetRecord(stage: nat, inTrade: bool)

  /** Python's "not enough values to unpack". */
  datatype Raised = UnpackError

  type SavedStore = map<string, Saved>

  /** Reading and unpacking a symbol's record; an absent record reads as the initial one. */
  function Load(store: SavedStore, sym: string): (r: Result<State, Raised>)
    ensures r.Failure? <==> sym in store && store[sym].ResetRecord?
    ensures sym !in store ==> r == Success(Initial)
    ensures sym in store && store[sym].Full? ==> r == Success(store[sym].state)
  {
    if sym !in store then Success(Initial)
    else match store[sym]
      case Full(st) => Success(st)
      case ResetRecord(_, _) => Failure(UnpackError)
  }

  /** A saved six-key record has the anchor its stage reads. */
  predicate Readable(store: SavedStore, sym: string) {
    sym in store && store[sym].Full? ==> CurrentAnchorSet(store[sym].state)
  }

  datatype SavedOutcome = SavedOutcome(store: SavedStore, alerts: seq<Alert>)

  /** `check_macd_pattern(sym)` exactly as written, including the raise. */
  function CheckAsWritten(store: SavedStore, sym: string, fetched: Option<seq<Row>>): (r: Result<SavedOutcome, Raised>)
    requires Readable(store, sym)
    ensures !Usable(fetched) ==> r == Success(SavedOutcome(store, []))
    ensures Usable(fetched) && !Qualifies(fetched.value[|fetched.value| - 1])
      ==> r == Success(SavedOutcome(store[sym := ResetRecord(0, false)], []))
    ensures r.Failure? <==>
      Usable(fetched) && Qualifies(fetched.value[|fetched.value| - 1]) && sym in store && store[sym].ResetRecord?
    ensures Usable(fetched) && Qualifies(fetched.value[|fetched.value| - 1]) && r.Success? ==>
      var rows := fetched.value;
      var last := rows[|rows| - 1];
      var s := Step(Load(store, sym).value, last.macd.value, rows[|rows| - 2].macd, last.signal.value, last.rsi.value);
      r.value == SavedOutcome(store[sym := Full(s.state)], s.alerts)
  {
    if fetched.None? || |fetched.value| < MinCandles then
      Success(SavedOutcome(store, []))
    else
      var rows := fetched.value;
      var i := |rows| - 1;
      if !Qualifies(rows[i]) then
        Success(SavedOutcome(store[sym := ResetRecord(0, false)], []))
      else
        match Load(store, sym)
        case Failure(e) => Failure(e)
        case Success(st) =>
          var s := Step(st, rows[i].macd.value, rows[i - 1].macd, rows[i].signal.value, rows[i].rsi.value);
          Success(SavedOutcome(store[sym := Full(s.state)], s.alerts))
  }

  /** Every saved six-key record satisfies the reachability invariant. */
  predicate SavedValid(store: SavedStore) {
    forall k :: k in store && store[k].Full? ==> Valid(store[k].state)
  }

  /**
   * The tables the code as written fills meet the `Readable` requirement:
   * the empty table is valid, and a call that does not raise keeps it valid.
   */
  lemma AsWrittenKeepsValid(store: SavedStore, sym: string, fetched: Option<seq<Row>>)
    requires SavedValid(store)
    ensures Readable(store, sym)
    ensures SavedValid(map[])
    ensures CheckAsWritten(store, sym, fetched).Success? ==> SavedValid(CheckAsWritten(store, sym, fetched).value.store)
  {
    InitialIsValid();
    if sym in store && store[sym].Full? {
      ValidReadsCurrentAnchor(store[sym].state);
    }
  }

  /**
   * Whatever the symbol's history, a reset followed by any usable frame whose
   * last MACD is defined and negative raises on the second call.
   */
  lemma ResetThenNegativeMacdRaises(store: SavedStore, sym: string, reset: seq<Row>, next: seq<Row>)
    requires Readable(store, sym)
    requires |reset| >= MinCandles && !Qualifies(reset[|reset| - 1])
    requires |next| >= MinCandles && Qualifies(next[|next| - 1])
    ensures var first := CheckAsWritten(store, sym, Some(reset));
      && first.Success?
      && Readable(first.value.store, sym)
      && CheckAsWritten(first.value.store, sym, Some(next)) == Failure(UnpackError)
  {
  }
}

=== FILE: macd_pattern.dfy ===
/**
 * The per-symbol MACD reversal recognizer of main.py (`check_macd_pattern`).
 *
 * Each polling cycle looks only at the last candle of a freshly computed
 * indicator frame. A symbol's record walks a five-stage ladder over one
 * below-zero MACD excursion (peak, valley, rise, second valley, final rise);
 * reaching stage 5 emits a BUY alert and opens a trade, and an exit rule
 * closes it again. Indicator values arrive as given columns; a NaN entry is
 * `None`.
 */
module MacdPattern {
  import opened Wrappers
  import opened NanCompare

  /** Ladder thresholds and filters, fixed in the source. */
  const Drop: real := 0.012
  const RiseTowardZero: real := 0.004
  const SecondDrop: real := 0.007
  const FinalRise: real := 0.010
  const RsiCeiling: real := 65.0
  const ExitRsiFloor: real := 55.0
  /** Frames shorter than this are skipped. */
  const MinCandles: nat := 20

  datatype Alert = Buy | Exit

  /**
   * A symbol's saved record: the ladder stage, the four anchors recorded on
   * the way up the ladder, and whether a BUY is open.
   */
  datatype State = State(
    stage: nat,
    peak: Option<real>,
    valley: Option<real>,
    tempRise: Option<real>,
    secondValley: Option<real>,
    inTrade: bool)

  /** The record a symbol starts from, and the one a reset restores. */
  const Initial: State := State(0, None, None, None, None, false)

  /** One row of the indicator frame: MACD, its signal line and RSI. */
  datatype Row = Row(macd: Option<real>, signal: Option<real>, rsi: Option<real>)

  datatype StepResult = StepResult(state: State, alerts: seq<Alert>)

  /** The anchor that the transition into stage `k` records (k in 1..4). */
  function Anchor(st: State, k: nat): Option<real> {
    if k == 1 then st.peak
    else if k == 2 then st.valley
    else if k == 3 then st.tempRise
    else if k == 4 then st.secondValley
    else None
  }

  /**
   * The ladder reads the anchor of the current stage; an unset one would be
   * `None - 0.012` in the source, which raises.
   */
  predicate CurrentAnchorSet(st: State) {
    1 <= st.stage <= 4 ==> Anchor(st, st.stage).Some?
  }

  /**
   * What every record reachable from `Initial` satisfies: the stage is in
   * 0..5, reaching stage k means the k-th anchor has been recorded, and a
   * trade is open exactly in stage 5.
   */
  predicate Valid(st: State) {
    && st.stage <= 5
    && (forall k :: 1 <= k <= 4 && k <= st.stage ==> Anchor(st, k).Some?)
    && (st.inTrade <==> st.stage == 5)
  }

  /**
   * The condition under which the current stage moves one step up, stated
   * stage by stage. Stage 5 (and beyond) has no way up.
   */
  predicate Guard(st: State, m: real, sig: real, rsi: real) {
    match st.stage
    case 0 => true
    case 1 => st.peak.Some? && m < st.peak.value - Drop
    case 2 => st.valley.Some? && m > st.valley.value + RiseTowardZero
    case 3 => st.tempRise.Some? && m < st.tempRise.value - SecondDrop
    case 4 => st.secondValley.Some? && m > st.secondValley.value + FinalRise && m > sig && rsi < RsiCeiling
    case _ => false
  }

  /** The exit rule's market condition: MACD under its signal line, or MACD falling while RSI is high. */
  predicate Retreat(m: real, prev: Option<real>, sig: real, rsi: real) {
    m < sig || (Exceeds(prev, m) && rsi > ExitRsiFloor)
  }

  lemma InitialIsValid()
    ensures Valid(Initial)
  {
  }

  lemma ValidReadsCurrentAnchor(st: State)
    requires Valid(st)
    ensures CurrentAnchorSet(st)
  {
  }

  /**
   * The entry ladder: an if/elif chain, so at most one transition fires.
   * Only the 4 -> 5 transition alerts (BUY) and opens the trade.
   */
  function Advance(st: State, m: real, sig: real, rsi: real): (r: StepResult)
    requires CurrentAnchorSet(st)
    ensures r.state.stage == if Guard(st, m, sig, rsi) then st.stage + 1 else st.stage
    ensures !Guard(st, m, sig, rsi) ==> r == StepResult(st, [])
    ensures st.stage == 0 ==> r.state.stage == 1 && r.state.peak == Some(m)
    ensures forall k :: 1 <= k <= 4 && k != st.stage + 1 ==> Anchor(r.state, k) == Anchor(st, k)
    ensures Guard(st, m, sig, rsi) && st.stage < 4 ==> Anchor(r.state, st.stage + 1) == Some(m)
    ensures r.state.inTrade <==> st.inTrade || (st.stage == 4 && Guard(st, m, sig, rsi))
    ensures r.alerts == if st.stage == 4 && Guard(st, m, sig, rsi) then [Buy] else []
    ensures st.stage >= 5 ==> r == StepResult(st, [])
    ensures Valid(st) ==> Valid(r.state)
  {
    if st.stage == 0 then
      StepResult(st.(stage := 1, peak := Some(m)), [])
    else if st.stage == 1 && m < st.peak.value - Drop then
      StepResult(st.(stage := 2, valley := Some(m)), [])
    else if st.stage == 2 && m > st.valley.value + RiseTowardZero then
      StepResult(st.(stage := 3, tempRise := Some(m)), [])
    else if st.stage == 3 && m < st.tempRise.value - SecondDrop then
      StepResult(st.(stage := 4, secondValley := Some(m)), [])
    else if st.stage == 4 && m > st.secondValley.value + FinalRise && m > sig && rsi < RsiCeiling then
      StepResult(st.(stage := 5, inTrade := true), [Buy])
    else
      StepResult(st, [])
  }

  /**
   * One evaluation of a symbol whose last candle is usable: the entry ladder,
   * then the exit rule on the (possibly just opened) trade. `prev` is the
   * previous candle's MACD, which may be NaN.
   */
  function Step(st: State, m: real, prev: Option<real>, sig: real, rsi: real): (r: StepResult)
    requires CurrentAnchorSet(st)
    ensures Buy in r.alerts <==> st.stage == 4 && Guard(st, m, sig, rsi)
    ensures Exit in r.alerts <==> (st.inTrade || Buy in r.alerts) && Retreat(m, prev, sig, rsi)
    ensures r.alerts == [] || r.alerts == [Buy] || r.alerts == [Exit] || r.alerts == [Buy, Exit]
    ensures Exit in r.alerts ==> r.state.stage == 0 && !r.state.inTrade
    ensures r.state.inTrade <==> (st.inTrade || Buy in r.alerts) && Exit !in r.alerts
    ensures r.state.stage == 0 || r.state.stage == st.stage || r.state.stage == st.stage + 1
    ensures Exit !in r.alerts ==> r.state.stage == if Guard(st, m, sig, rsi) then st.stage + 1 else st.stage
    ensures forall k :: 1 <= k <= 4 && k != st.stage + 1 ==> Anchor(r.state, k) == Anchor(st, k)
    ensures Guard(st, m, sig, rsi) && st.stage < 4 ==> Anchor(r.state, st.stage + 1) == Some(m)
    ensures Valid(st) ==> Valid(r.state)
  {
    var a := Advance(st, m, sig, rsi);
    if a.state.inTrade && Retreat(m, prev, sig, rsi) then
      StepResult(a.state.(inTrade := false, stage := 0), a.alerts + [Exit])
    else
      a
  }

  /** The frame passed the length guard. */
  predicate Usable(fetched: Option<seq<Row>>) {
    fetched.Some? && |fetched.value| >= MinCandles
  }

  /** The last candle has MACD, signal and RSI defined and MACD below zero. */
  predicate Qualifies(row: Row) {
    row.macd.Some? && row.signal.Some? && row.rsi.Some? && row.macd.value < 0.0
  }

  /** What one evaluation does with the symbol's record: `write` is None when it is left alone. */
  datatype Cycle = Cycle(write: Option<State>, alerts: seq<Alert>)

  /**
   * One call of the pattern check for a symbol whose saved record is
   * `prior`. `fetched` is None when fetching or indicator computation failed.
   */
  function CheckSymbol(prior: State, fetched: Option<seq<Row>>): (c: Cycle)
    requires CurrentAnchorSet(prior)
    ensures !Usable(fetched) ==> c == Cycle(None, [])
    ensures Usable(fetched) ==> c.write.Some?
    ensures Usable(fetched) && !Qualifies(fetched.value[|fetched.value| - 1]) ==> c == Cycle(Some(Initial), [])
    ensures c.alerts != [] ==> Usable(fetched) && Qualifies(fetched.value[|fetched.value| - 1])
    ensures Buy in c.alerts ==> prior.stage == 4 && c.write.Some? && c.write.value.stage in {0, 5}
    ensures Exit in c.alerts ==> (prior.inTrade || Buy in c.alerts) && c.write == Some(c.write.value.(stage := 0, inTrade := false))
    ensures Valid(prior) && c.write.Some? ==> Valid(c.write.value)
    ensures Usable(fetched) && Qualifies(fetched.value[|fetched.value| - 1]) ==>
      var rows := fetched.value;
      var last := rows[|rows| - 1];
      var s := Step(prior, last.macd.value, rows[|rows| - 2].macd, last.signal.value, last.rsi.value);
      c == Cycle(Some(s.state), s.alerts)
  {
    if fetched.None? || |fetched.value| < MinCandles then
      Cycle(None, [])
    else
      var rows := fetched.value;
      var i := |rows| - 1;
      if !Qualifies(rows[i]) then
        Cycle(Some(Initial), [])
      else
        var s := Step(prior, rows[i].macd.value, rows[i - 1].macd, rows[i].signal.value, rows[i].rsi.value);
        Cycle(Some(s.state), s.alerts)
  }

  /** The per-symbol table, keyed by symbol. */
  type Store = map<string, State>

  /** A symbol without a saved record starts from `Initial`. */
  function Lookup(store: Store, sym: string): State {
    if sym in store then store[sym] else Initial
  }

  datatype Outcome = Outcome(store: Store, alerts: seq<Alert>)

  /** `check_macd_pattern(sym)` against the table, with the fetched frame as a parameter. */
  function CheckMacdPattern(store: Store, sym: string, fetched: Option<seq<Row>>): (r: Outcome)
    requires CurrentAnchorSet(Lookup(store, sym))
    ensures !Usable(fetched) ==> r == Outcome(store, [])
    ensures Usable(fetched) ==> sym in r.store
    ensures Usable(fetched) && !Qualifies(fetched.value[|fetched.value| - 1]) ==> r.store[sym] == Initial && r.alerts == []
    ensures r.store.Keys == store.Keys + (if Usable(fetched) then {sym} else {})
    ensures forall k :: k != sym && k in store ==> r.store[k] == store[k]
    ensures Valid(Lookup(store, sym)) ==> Valid(Lookup(r.store, sym))
    ensures Usable(fetched) && Qualifies(fetched.value[|fetched.value| - 1]) ==>
      var rows := fetched.value;
      var last := rows[|rows| - 1];
      var s := Step(Lookup(store, sym), last.macd.value, rows[|rows| - 2].macd, last.signal.value, last.rsi.value);
      r.store[sym] == s.state && r.alerts == s.alerts
  {
    var c := CheckSymbol(Lookup(store, sym), fetched);
    match c.write
    case None => Outcome(store, c.alerts)
    case Some(st) => Outcome(store[sym := st], c.alerts)
  }

  predicate StoreValid(store: Store) {
    forall k :: k in store ==> Valid(store[k])
  }

  datatype Notice = Notice(symbol: string, alert: Alert)
  datatype CycleOutcome = CycleOutcome(store: Store, notices: seq<Notice>)

  function Symbols(batch: seq<(string, Option<seq<Row>>)>): set<string> {
    set j | 0 <= j < |batch| :: batch[j].0
  }

  /**
   * One pass of the bot loop: every configured symbol in order, each with its
   * own fetched frame. Symbols never interact.
   */
  function RunCycle(store: Store, batch: seq<(string, Option<seq<Row>>)>): (r: CycleOutcome)
    requires StoreValid(store)
    ensures StoreValid(r.store)
    ensures r.store.Keys <= store.Keys + Symbols(batch)
    ensures forall k :: k !in Symbols(batch) && k in store ==> k in r.store && r.store[k] == store[k]
    ensures forall n :: n in r.notices ==> n.symbol in Symbols(batch)
    decreases |batch|
  {
    if batch == [] then
      CycleOutcome(store, [])
    else
      var o := CheckMacdPattern(store, batch[0].0, batch[0].1);
      var rest := RunCycle(o.store, batch[1..]);
      assert Symbols(batch) == {batch[0].0} + Symbols(batch[1..]) by {
        forall s | s in Symbols(batch) ensures s in {batch[0].0} + Symbols(batch[1..]) {
          var j :| 0 <= j < |batch| && batch[j].0 == s;
          if j > 0 { assert batch[1..][j - 1].0 == s; }
        }
      }
      CycleOutcome(rest.store, Tag(batch[0].0, o.alerts) + rest.notices)
  }

  function Tag(sym: string, alerts: seq<Alert>): (r: seq<Notice>)
    ensures |r| == |alerts|
    ensures forall j :: 0 <= j < |r| ==> r[j] == Notice(sym, alerts[j])
  {
    if alerts == [] then [] else [Notice(sym, alerts[0])] + Tag(sym, alerts[1..])
  }

  /** No symbol appears twice in the batch, as in the `SYMBOLS` list (main.py:15). */
  predicate Distinct(batch: seq<(string, Option<seq<Row>>)>) {
    forall j, l :: 0 <= j < l < |batch| ==> batch[j].0 != batch[l].0
  }

  /** A symbol in a valid table, or absent from it, can be evaluated. */
  lemma StoreReadable(store: Store, sym: string)
    requires StoreValid(store)
    ensures Valid(Lookup(store, sym)) && CurrentAnchorSet(Lookup(store, sym))
  {
    InitialIsValid();
    ValidReadsCurrentAnchor(Lookup(store, sym));
  }

  /** An evaluation's effect on its own symbol depends on that symbol's record alone. */
  lemma CheckReadsOwnEntry(a: Store, b: Store, sym: string, fetched: Option<seq<Row>>)
    requires Lookup(a, sym) == Lookup(b, sym) && CurrentAnchorSet(Lookup(a, sym))
    ensures Lookup(CheckMacdPattern(a, sym, fetched).store, sym) == Lookup(CheckMacdPattern(b, sym, fetched).store, sym)
    ensures CheckMacdPattern(a, sym, fetched).alerts == CheckMacdPattern(b, sym, fetched).alerts
  {
  }

  /** In a batch of distinct symbols the first one does not come back, and the rest stay distinct. */
  lemma DistinctTail(batch: seq<(string, Option<seq<Row>>)>)
    requires Distinct(batch) && batch != []
    ensures batch[0].0 !in Symbols(batch[1..])
    ensures Distinct(batch[1..])
  {
    var rest := batch[1..];
    forall l | 0 <= l < |rest| ensures rest[l].0 != batch[0].0 {
      assert rest[l] == batch[l + 1];
    }
    forall a, b | 0 <= a < b < |rest| ensures rest[a].0 != rest[b].0 {
      assert rest[a] == batch[a + 1] && rest[b] == batch[b + 1];
    }
  }

  /** A pass leaves the record of a symbol outside the batch as it was. */
  lemma RunCycleSkips(store: Store, batch: seq<(string, Option<seq<Row>>)>, sym: string)
    requires StoreValid(store) && sym !in Symbols(batch)
    ensures Lookup(RunCycle(store, batch).store, sym) == Lookup(store, sym)
  {
  }

  /** An evaluation keeps a valid table valid. */
  lemma CheckKeepsStoreValid(store: Store, sym: string, fetched: Option<seq<Row>>)
    requires StoreValid(store)
    ensures CurrentAnchorSet(Lookup(store, sym))
    ensures StoreValid(CheckMacdPattern(store, sym, fetched).store)
  {
    StoreReadable(store, sym);
  }

  /** A pass is the first symbol's evaluation followed by a pass over the rest. */
  lemma RunCycleFirst(store: Store, batch: seq<(string, Option<seq<Row>>)>)
    requires StoreValid(store) && batch != []
    ensures CurrentAnchorSet(Lookup(store, batch[0].0))
    ensures StoreValid(CheckMacdPattern(store, batch[0].0, batch[0].1).store)
    ensures var o := CheckMacdPattern(store, batch[0].0, batch[0].1);
      var rest := RunCycle(o.store, batch[1..]);
      RunCycle(store, batch) == CycleOutcome(rest.store, Tag(batch[0].0, o.alerts) + rest.notices)
  {
    CheckKeepsStoreValid(store, batch[0].0, batch[0].1);
  }

  /** The alerts of the notices for `sym`, in order. */
  function AlertsOf(ns: seq<Notice>, sym: string): seq<Alert> {
    if ns == [] then []
    else (if ns[0].symbol == sym then [ns[0].alert] else []) + AlertsOf(ns[1..], sym)
  }

  lemma {:induction false} AlertsOfAppend(a: seq<Notice>, b: seq<Notice>, sym: string)
    ensures AlertsOf(a + b, sym) == AlertsOf(a, sym) + AlertsOf(b, sym)
    decreases |a|
  {
    if a == [] {
      assert a + b == b;
    } else {
      assert (a + b)[0] == a[0] && (a + b)[1..] == a[1..] + b;
      AlertsOfAppend(a[1..], b, sym);
    }
  }

  /** Tagging alerts with a symbol files all of them, in order, under that symbol and none under another. */
  lemma {:induction false} AlertsOfTag(tag: string, alerts: seq<Alert>, sym: string)
    ensures AlertsOf(Tag(tag, alerts), sym) == if sym == tag then alerts else []
    decreases |alerts|
  {
    if alerts != [] {
      AlertsOfTag(tag, alerts[1..], sym);
      assert Tag(tag, alerts)[1..] == Tag(tag, alerts[1..]);
    }
  }

  /** Notices that never name `sym` file no alert under it. */
  lemma {:induction false} AlertsOfAbsent(ns: seq<Notice>, sym: string)
    requires forall n :: n in ns ==> n.symbol != sym
    ensures AlertsOf(ns, sym) == []
    decreases |ns|
  {
    if ns != [] {
      assert ns[0] in ns;
      assert forall n :: n in ns[1..] ==> n in ns;
      AlertsOfAbsent(ns[1..], sym);
    }
  }

  /**
   * Each symbol's alerts in a pass over a batch of distinct symbols are
   * exactly those of its own evaluation, in order.
   */
  lemma {:induction false} RunCycleAlerts(store: Store, batch: seq<(string, Option<seq<Row>>)>, j: nat)
    requires StoreValid(store) && Distinct(batch) && j < |batch|
    ensures CurrentAnchorSet(Lookup(store, batch[j].0))
    ensures AlertsOf(RunCycle(store, batch).notices, batch[j].0)
      == CheckMacdPattern(store, batch[j].0, batch[j].1).alerts
    decreases |batch|
  {
    var sym := batch[j].0;
    StoreReadable(store, sym);
    RunCycleFirst(store, batch);
    DistinctTail(batch);
    var o := CheckMacdPattern(store, batch[0].0, batch[0].1);
    var rest := batch[1..];
    var later := RunCycle(o.store, rest).notices;
    AlertsOfAppend(Tag(batch[0].0, o.alerts), later, sym);
    AlertsOfTag(batch[0].0, o.alerts, sym);
    if j == 0 {
      AlertsOfAbsent(later, sym);
    } else {
      assert rest[j - 1] == batch[j];
      RunCycleAlerts(o.store, rest, j - 1);
      CheckReadsOwnEntry(o.store, store, sym, batch[j].1);
    }
  }

  /**
   * Symbols never interact: after a pass over a batch of distinct symbols,
   * each symbol's record is what its own evaluation alone would leave.
   */
  lemma {:induction false} RunCycleIndependent(store: Store, batch: seq<(string, Option<seq<Row>>)>, j: nat)
    requires StoreValid(store) && Distinct(batch) && j < |batch|
    ensures CurrentAnchorSet(Lookup(store, batch[j].0))
    ensures Lookup(RunCycle(store, batch).store, batch[j].0)
      == Lookup(CheckMacdPattern(store, batch[j].0, batch[j].1).store, batch[j].0)
    decreases |batch|
  {
    var sym := batch[j].0;
    StoreReadable(store, sym);
    RunCycleFirst(store, batch);
    DistinctTail(batch);
    var o := CheckMacdPattern(store, batch[0].0, batch[0].1).store;
    var rest := batch[1..];
    if j == 0 {
      RunCycleSkips(o, rest, sym);
    } else {
      assert rest[j - 1] == batch[j];
      RunCycleIndependent(o, rest, j - 1);
      CheckReadsOwnEntry(o, store, sym, batch[j].1);
    }
  }

  // ---------------------------------------------------------------------------
  // Several cycles of one symbol.

  datatype Trace = Trace(state: State, alerts: seq<Alert>)

  /** Consecutive evaluations of one symbol, one fetched frame per polling cycle. */
  function RunSymbol(st: State, frames: seq<Option<seq<Row>>>): (t: Trace)
    requires Valid(st)
    ensures Valid(t.state)
    decreases |frames|
  {
    if frames == [] then
      Trace(st, [])
    else
      var c := CheckSymbol(st, frames[0]);
      var rest := RunSymbol(c.write.GetOr(st), frames[1..]);
      Trace(rest.state, c.alerts + rest.alerts)
  }

  function Count(a: Alert, s: seq<Alert>): nat {
    if s == [] then 0 else (if s[0] == a then 1 else 0) + Count(a, s[1..])
  }

  function Open(st: State): nat {
    if st.inTrade then 1 else 0
  }

  lemma {:induction false} CountAppend(a: Alert, s: seq<Alert>, t: seq<Alert>)
    ensures Count(a, s + t) == Count(a, s) + Count(a, t)
    decreases |s|
  {
    if s == [] {
      assert s + t == t;
    } else {
      assert (s + t)[1..] == s[1..] + t;
      CountAppend(a, s[1..], t);
    }
  }

  /** One evaluation never emits more EXITs than it emits BUYs plus the trade it closes. */
  lemma CycleBalance(st: State, frame: Option<seq<Row>>)
    requires Valid(st)
    ensures var c := CheckSymbol(st, frame);
      Count(Exit, c.alerts) + Open(c.write.GetOr(st)) <= Count(Buy, c.alerts) + Open(st)
  {
    var c := CheckSymbol(st, frame);
    if c.alerts == [Buy, Exit] {
      assert c.alerts[1..] == [Exit] && [Exit][1..] == [];
      assert Count(Exit, c.alerts) == 1 && Count(Buy, c.alerts) == 1;
    } else if c.alerts == [Exit] {
      assert Count(Exit, c.alerts) == 1 && Count(Buy, c.alerts) == 0;
    } else if c.alerts == [Buy] {
      assert Count(Exit, c.alerts) == 0 && Count(Buy, c.alerts) == 1;
    }
  }

  /**
   * Over any run of cycles, every EXIT alert is matched by an earlier BUY
   * (or by the trade open at the start).
   */
  lemma {:induction false} ExitsNeverOutnumberBuys(st: State, frames: seq<Option<seq<Row>>>)
    requires Valid(st)
    ensures var t := RunSymbol(st, frames);
      Count(Exit, t.alerts) + Open(t.state) <= Count(Buy, t.alerts) + Open(st)
    decreases |frames|
  {
    if frames != [] {
      var c := CheckSymbol(st, frames[0]);
      var next := c.write.GetOr(st);
      CycleBalance(st, frames[0]);
      ExitsNeverOutnumberBuys(next, frames[1..]);
      var rest := RunSymbol(next, frames[1..]);
      CountAppend(Exit, c.alerts, rest.alerts);
      CountAppend(Buy, c.alerts, rest.alerts);
    }
  }

  /** While a trade is open, no evaluation emits another BUY. */
  lemma NoBuyWhileInTrade(st: State, frame: Option<seq<Row>>)
    requires Valid(st) && st.inTrade
    ensures Buy !in CheckSymbol(st, frame).alerts
  {
  }

  /**
   * BUY and EXIT come out of the same call exactly when the entry fires on a
   * candle whose MACD fell from the previous one while RSI is above 55.
   */
  lemma SameCallBuyAndExit(st: State, m: real, prev: Option<real>, sig: real, rsi: real)
    requires CurrentAnchorSet(st)
    ensures var r := Step(st, m, prev, sig, rsi);
      (Buy in r.alerts && Exit in r.alerts)
      <==> (st.stage == 4 && Guard(st, m, sig, rsi) && Exceeds(prev, m) && rsi > ExitRsiFloor)
  {
  }

  /**
   * A reset on a non-negative MACD closes an open trade without an EXIT
   * alert.
   */
  lemma ResetDropsTradeSilently(st: State, rows: seq<Row>)
    requires Valid(st) && st.inTrade
    requires |rows| >= MinCandles && !Qualifies(rows[|rows| - 1])
    ensures CheckSymbol(st, Some(rows)) == Cycle(Some(Initial), [])
    ensures !Initial.inTrade
  {
  }

  /**
   * After a reset, the next evaluation with a usable negative MACD starts a
   * fresh ladder: stage 1, the peak recorded, no alert.
   */
  lemma ResetRestartsLadder(store: Store, sym: string, reset: seq<Row>, next: seq<Row>)
    requires CurrentAnchorSet(Lookup(store, sym))
    requires |reset| >= MinCandles && !Qualifies(reset[|reset| - 1])
    requires |next| >= MinCandles && Qualifies(next[|next| - 1])
    ensures var first := CheckMacdPattern(store, sym, Some(reset));
      var second := CheckMacdPattern(first.store, sym, Some(next));
      && second.store[sym] == Initial.(stage := 1, peak := next[|next| - 1].macd)
      && second.alerts == []
  {
  }

  /**
   * The reversal walk-through: MACD -0.02, -0.04, -0.02, -0.035, -0.01 with
   * the signal line below -0.01 and RSI 40 climbs the ladder one stage per
   * candle and emits a single BUY on the fifth; a following non-negative
   * MACD resets the record.
   */
  lemma ReversalExample()
    ensures var s1 := Step(Initial, -0.02, None, -0.03, 40.0);
      var s2 := Step(s1.state, -0.04, Some(-0.02), -0.03, 40.0);
      var s3 := Step(s2.state, -0.02, Some(-0.04), -0.03, 40.0);
      var s4 := Step(s3.state, -0.035, Some(-0.02), -0.03, 40.0);
      var s5 := Step(s4.state, -0.01, Some(-0.035), -0.02, 40.0);
      && s1.state.stage == 1 && s2.state.stage == 2 && s3.state.stage == 3 && s4.state.stage == 4
      && s1.alerts == [] && s2.alerts == [] && s3.alerts == [] && s4.alerts == []
      && s5.alerts == [Buy] && s5.state.stage == 5 && s5.state.inTrade
      && s5.state.secondValley == Some(-0.035)
      && CheckSymbol(s5.state, Some(seq(MinCandles, _ => Row(Some(0.015), Some(0.0), Some(40.0))))) == Cycle(Some(Initial), [])
  {
  }
}

=== FILE: signal_scan.dfy ===
/**
 * The stateless signal scan of job.py (`detect_signals`) and the dispatch in
 * its `main`, which sends only the last signal found for each symbol.
 *
 * Each candle from index 5 on is judged from its own row and the previous
 * row's MACD alone. A NaN RSI or VWAP entry is `None`, and any comparison
 * with it is false.
 */
module SignalScan {
  import opened Wrappers
  import opened NanCompare

  /** The first index the scan examines. */
  const FirstIndex: nat := 5
  /** SHORT needs RSI above this. */
  const ShortRsiFloor: real := 35.0

  datatype Side = Long | Short

  /**
   * One row of the indicator frame, restricted to the columns the scan reads.
   * `bearishTrend` is the only trend column it reads, for both sides.
   */
  datatype Row = Row(
    timestamp: int,
    macd: real,
    rsi: Option<real>,
    bearishTrend: bool,
    vwap: Option<real>,
    close: real,
    rsiFalling: bool,
    highVolume: bool)

  /** A recorded signal: the candle's position, its timestamp and the side. */
  datatype Signal = Signal(index: nat, timestamp: int, side: Side)

  /** LONG: MACD negative and falling, bearish-trend flag set, close above VWAP. */
  predicate LongAt(prev: Row, cur: Row) {
    && cur.macd < 0.0
    && prev.macd > cur.macd
    && cur.bearishTrend
    && Undercuts(cur.vwap, cur.close)
  }

  /**
   * SHORT: MACD positive and rising, bearish-trend flag set, close below VWAP,
   * RSI above 35 and falling, high volume.
   */
  predicate ShortAt(prev: Row, cur: Row) {
    && cur.macd > 0.0
    && prev.macd < cur.macd
    && cur.bearishTrend
    && Exceeds(cur.vwap, cur.close)
    && Exceeds(cur.rsi, ShortRsiFloor)
    && cur.rsiFalling
    && cur.highVolume
  }

  /** Whether the candle at `i` qualifies for `side`. */
  predicate Fires(rows: seq<Row>, i: int, side: Side) {
    && 1 <= i < |rows|
    && match side
       case Long => LongAt(rows[i - 1], rows[i])
       case Short => ShortAt(rows[i - 1], rows[i])
  }

  /** The signals recorded at one index: LONG first, then SHORT. At most one of them fires. */
  function SignalsAt(rows: seq<Row>, i: nat): (r: seq<Signal>)
    requires 1 <= i < |rows|
    ensures Fires(rows, i, Long) ==> r == [Signal(i, rows[i].timestamp, Long)]
    ensures Fires(rows, i, Short) ==> r == [Signal(i, rows[i].timestamp, Short)]
    ensures !Fires(rows, i, Long) && !Fires(rows, i, Short) ==> r == []
  {
    (if LongAt(rows[i - 1], rows[i]) then [Signal(i, rows[i].timestamp, Long)] else [])
    + (if ShortAt(rows[i - 1], rows[i]) then [Signal(i, rows[i].timestamp, Short)] else [])
  }

  /** Reference definition: the signals of indices FirstIndex..n-1, in index order. */
  function Scan(rows: seq<Row>, n: nat): seq<Signal>
    requires n <= |rows|
    decreases n
  {
    if n <= FirstIndex then [] else Scan(rows, n - 1) + SignalsAt(rows, n - 1)
  }

  /** The sign conditions on MACD keep LONG and SHORT apart. */
  lemma NeverBoth(rows: seq<Row>, i: int)
    ensures !(Fires(rows, i, Long) && Fires(rows, i, Short))
  {
  }

  /** `s` is a signal the first n candles justify. */
  predicate Justified(rows: seq<Row>, n: nat, s: Signal) {
    FirstIndex <= s.index < n <= |rows| && s.timestamp == rows[s.index].timestamp && Fires(rows, s.index, s.side)
  }

  predicate Increasing(signals: seq<Signal>) {
    forall j, k :: 0 <= j < k < |signals| ==> signals[j].index < signals[k].index
  }

  /** Every recorded signal comes from an examined index that qualifies for its side. */
  lemma {:induction false} ScanSound(rows: seq<Row>, n: nat)
    requires n <= |rows|
    ensures forall k :: 0 <= k < |Scan(rows, n)| ==> Justified(rows, n, Scan(rows, n)[k])
    decreases n
  {
    if n > FirstIndex {
      ScanSound(rows, n - 1);
      var prior: seq<Signal>, here: seq<Signal> := Scan(rows, n - 1), SignalsAt(rows, n - 1);
      forall k | 0 <= k < |prior + here| ensures Justified(rows, n, (prior + here)[k]) {
        if k < |prior| {
          assert Justified(rows, n - 1, prior[k]);
        }
      }
    }
  }

  /** A qualifying examined candle is recorded for its side. */
  lemma {:induction false} RecordedWhenFires(rows: seq<Row>, n: nat, i: nat, side: Side)
    requires n <= |rows| && FirstIndex <= i < n && Fires(rows, i, side)
    ensures Signal(i, rows[i].timestamp, side) in Scan(rows, n)
    decreases n
  {
    var prior: seq<Signal>, here: seq<Signal> := Scan(rows, n - 1), SignalsAt(rows, n - 1);
    assert Scan(rows, n) == prior + here;
    var s := Signal(i, rows[i].timestamp, side);
    if i == n - 1 {
      assert here == [s];
      assert (prior + here)[|prior|] == s;
    } else {
      RecordedWhenFires(rows, n - 1, i, side);
      var k :| 0 <= k < |prior| && prior[k] == s;
      assert (prior + here)[k] == s;
    }
  }

  /** Every examined index that qualifies for a side is recorded for it. */
  lemma ScanComplete(rows: seq<Row>, n: nat)
    requires n <= |rows|
    ensures forall i, side {:trigger Fires(rows, i, side)} :: FirstIndex <= i < n && Fires(rows, i, side) ==>
      Signal(i, rows[i].timestamp, side) in Scan(rows, n)
  {
    forall i, side | FirstIndex <= i < n && Fires(rows, i, side)
      ensures Signal(i, rows[i].timestamp, side) in Scan(rows, n)
    {
      RecordedWhenFires(rows, n, i, side);
    }
  }

  /** An examined index is recorded for a side exactly when it qualifies for it. */
  lemma ScanExact(rows: seq<Row>, n: nat)
    requires n <= |rows|
    ensures forall i, side {:trigger Fires(rows, i, side)} :: FirstIndex <= i < n ==>
      (Fires(rows, i, side) <==> Signal(i, rows[i].timestamp, side) in Scan(rows, n))
  {
    ScanComplete(rows, n);
    ScanSound(rows, n);
    forall i, side | FirstIndex <= i < n && Signal(i, rows[i].timestamp, side) in Scan(rows, n)
      ensures Fires(rows, i, side)
    {
      var k :| 0 <= k < |Scan(rows, n)| && Scan(rows, n)[k] == Signal(i, rows[i].timestamp, side);
      assert Justified(rows, n, Scan(rows, n)[k]);
    }
  }

  /** Appending signals that all sit beyond a list's indices keeps it increasing. */
  lemma IncreasingAppend(a: seq<Signal>, b: seq<Signal>, bound: nat)
    requires Increasing(a) && Increasing(b)
    requires forall k :: 0 <= k < |a| ==> a[k].index < bound
    requires forall k :: 0 <= k < |b| ==> b[k].index >= bound
    ensures Increasing(a + b)
  {
    forall j, k | 0 <= j < k < |a + b| ensures (a + b)[j].index < (a + b)[k].index {
      if k >= |a| {
        assert (a + b)[k] == b[k - |a|];
        if j >= |a| {
          assert (a + b)[j] == b[j - |a|];
        } else {
          assert (a + b)[j] == a[j];
        }
      }
    }
  }

  /** Signals come out in strictly increasing index order, so at most one per index. */
  lemma {:induction false} ScanIncreasing(rows: seq<Row>, n: nat)
    requires n <= |rows|
    ensures Increasing(Scan(rows, n))
    decreases n
  {
    if n > FirstIndex {
      ScanIncreasing(rows, n - 1);
      ScanSound(rows, n - 1);
      var prior: seq<Signal>, here: seq<Signal> := Scan(rows, n - 1), SignalsAt(rows, n - 1);
      forall k | 0 <= k < |prior| ensures prior[k].index < n - 1 {
        assert Justified(rows, n - 1, prior[k]);
      }
      IncreasingAppend(prior, here, n - 1);
    }
  }

  /** At most one signal per examined index. */
  lemma {:induction false} ScanLength(rows: seq<Row>, n: nat)
    requires n <= |rows|
    ensures |Scan(rows, n)| <= if n > FirstIndex then n - FirstIndex else 0
    decreases n
  {
    if n > FirstIndex {
      ScanLength(rows, n - 1);
    }
  }

  /**
   * The scan carries no state between candles: candles appended after
   * index n leave the signals up to n untouched.
   */
  lemma {:induction false} ScanPrefixStable(rows: seq<Row>, more: seq<Row>, n: nat)
    requires n <= |rows|
    ensures Scan(rows + more, n) == Scan(rows, n)
    decreases n
  {
    if n > FirstIndex {
      ScanPrefixStable(rows, more, n - 1);
      assert (rows + more)[n - 1] == rows[n - 1] && (rows + more)[n - 2] == rows[n - 2];
    }
  }

  /**
   * `signals` lists exactly the examined candles that qualify, each with its
   * side and timestamp, in increasing index order.
   */
  predicate Characterizes(rows: seq<Row>, signals: seq<Signal>) {
    && |signals| <= (if |rows| > FirstIndex then |rows| - FirstIndex else 0)
    && Increasing(signals)
    && (forall k :: 0 <= k < |signals| ==> Justified(rows, |rows|, signals[k]))
    && (forall i, side {:trigger Fires(rows, i, side)} :: FirstIndex <= i < |rows| && Fires(rows, i, side) ==>
          Signal(i, rows[i].timestamp, side) in signals)
  }

  lemma ScanCharacterized(rows: seq<Row>)
    ensures Characterizes(rows, Scan(rows, |rows|))
  {
    ScanSound(rows, |rows|);
    ScanComplete(rows, |rows|);
    ScanIncreasing(rows, |rows|);
    ScanLength(rows, |rows|);
  }

  lemma EmptyTogether(a: seq<Signal>, b: seq<Signal>)
    requires forall s :: s in a ==> s in b
    requires forall s :: s in b ==> s in a
    ensures a == [] <==> b == []
  {
    if a != [] {
      assert a[0] in a;
    }
    if b != [] {
      assert b[0] in b;
    }
  }

  /** Index-increasing lists holding the same signals start with the same one. */
  lemma SameHead(a: seq<Signal>, b: seq<Signal>)
    requires a != [] && b != [] && Increasing(a) && Increasing(b)
    requires forall s :: s in a ==> s in b
    requires forall s :: s in b ==> s in a
    ensures a[0] == b[0]
  {
    assert b[0] in b && a[0] in a;
    var i :| 0 <= i < |a| && a[i] == b[0];
    var j :| 0 <= j < |b| && b[j] == a[0];
    assert a[0].index <= a[i].index;
    assert b[0].index <= b[j].index;
  }

  /** Below a shared head, what `a` holds `b` holds too. */
  lemma SameTail(a: seq<Signal>, b: seq<Signal>)
    requires a != [] && b != [] && Increasing(a) && Increasing(b) && a[0] == b[0]
    requires forall s :: s in a ==> s in b
    ensures forall s :: s in a[1..] ==> s in b[1..]
  {
    forall s | s in a[1..] ensures s in b[1..] {
      var k :| 0 <= k < |a[1..]| && a[1..][k] == s;
      assert a[k + 1] == s && s in a && s.index > a[0].index;
      var m :| 0 <= m < |b| && b[m] == s;
      assert m != 0;
      assert b[1..][m - 1] == s;
    }
  }

  /** Two index-increasing lists holding the same signals are the same list. */
  lemma {:induction false} IncreasingSameElements(a: seq<Signal>, b: seq<Signal>)
    requires Increasing(a) && Increasing(b)
    requires forall s :: s in a ==> s in b
    requires forall s :: s in b ==> s in a
    ensures a == b
    decreases |a|
  {
    EmptyTogether(a, b);
    if a != [] {
      SameHead(a, b);
      SameTail(a, b);
      SameTail(b, a);
      IncreasingSameElements(a[1..], b[1..]);
      assert a == [a[0]] + a[1..] && b == [b[0]] + b[1..];
    }
  }

  /**
   * `Characterizes` pins the list down: two lists that both list exactly
   * the qualifying candles in index order are equal.
   */
  lemma CharacterizationUnique(rows: seq<Row>, a: seq<Signal>, b: seq<Signal>)
    requires Characterizes(rows, a) && Characterizes(rows, b)
    ensures a == b
  {
    forall s | s in a ensures s in b {
      var k :| 0 <= k < |a| && a[k] == s;
      assert Justified(rows, |rows|, a[k]);
      assert Fires(rows, s.index, s.side);
    }
    forall s | s in b ensures s in a {
      var k :| 0 <= k < |b| && b[k] == s;
      assert Justified(rows, |rows|, b[k]);
      assert Fires(rows, s.index, s.side);
    }
    IncreasingSameElements(a, b);
  }

  /** The scan up to i + 1 is the scan up to i followed by index i's signals. */
  lemma ScanStep(rows: seq<Row>, i: nat)
    requires FirstIndex <= i < |rows|
    ensures Scan(rows, i + 1) == Scan(rows, i) + SignalsAt(rows, i)
  {
  }

  /**
   * One iteration of job.py's loop: the nested entry tests on candle i and
   * the previous one, then the LONG and SHORT appends.
   */
  method RecordAt(rows: seq<Row>, i: nat, signals: seq<Signal>) returns (out: seq<Signal>)
    requires 1 <= i < |rows|
    ensures out == signals + SignalsAt(rows, i)
  {
    var prev, cur := rows[i - 1], rows[i];
    var entryLong, entryShort := false, false;
    if cur.macd < 0.0 && prev.macd > cur.macd {
      entryLong := cur.bearishTrend && Undercuts(cur.vwap, cur.close);
    }
    if cur.macd > 0.0 && prev.macd < cur.macd {
      entryShort := cur.bearishTrend && Exceeds(cur.vwap, cur.close) && Exceeds(cur.rsi, ShortRsiFloor)
        && cur.rsiFalling && cur.highVolume;
    }
    out := signals;
    if entryLong {
      out := out + [Signal(i, cur.timestamp, Long)];
    }
    if entryShort {
      out := out + [Signal(i, cur.timestamp, Short)];
    }
  }

  /** `detect_signals`: the loop of job.py over indices 5..len-1. */
  method DetectSignals(rows: seq<Row>) returns (signals: seq<Signal>)
    ensures signals == Scan(rows, |rows|)
  {
    signals := [];
    var i := if |rows| > FirstIndex then FirstIndex else |rows|;
    while i < |rows|
      invariant i <= |rows| && (|rows| > FirstIndex ==> FirstIndex <= i)
      invariant signals == Scan(rows, i)
    {
      signals := RecordAt(rows, i, signals);
      ScanStep(rows, i);
      i := i + 1;
    }
  }

  /** Python's `signals[-1:]`: the last signal, or nothing when there is none. */
  function LastSignal(signals: seq<Signal>): (r: seq<Signal>)
    ensures |r| <= 1
    ensures r == [] <==> signals == []
    ensures r != [] ==> r[0] == signals[|signals| - 1]
  {
    if |signals| == 0 then [] else signals[|signals| - 1..]
  }

  /** In an index-increasing list, nothing sits beyond the last element's index. */
  lemma AfterLastAbsent(all: seq<Signal>, s: Signal)
    requires all != [] && Increasing(all) && s.index > all[|all| - 1].index
    ensures s !in all
  {
    forall j | 0 <= j < |all| ensures all[j] != s {
      if j < |all| - 1 {
        assert all[j].index < all[|all| - 1].index;
      }
    }
  }

  /** Nothing is sent for a symbol exactly when none of its examined candles qualifies. */
  lemma NothingSentIffNoneQualifies(rows: seq<Row>)
    ensures Latest(rows) == [] <==>
      forall i, side {:trigger Fires(rows, i, side)} :: FirstIndex <= i < |rows| ==> !Fires(rows, i, side)
  {
    var all := Scan(rows, |rows|);
    ScanComplete(rows, |rows|);
    ScanSound(rows, |rows|);
    if all != [] {
      assert Justified(rows, |rows|, all[0]);
    }
  }

  /**
   * The signal sent for a symbol is a qualifying candle after which no
   * examined candle qualifies for either side.
   */
  lemma SentIsLatest(rows: seq<Row>)
    requires Latest(rows) != []
    ensures Justified(rows, |rows|, Latest(rows)[0])
    ensures forall i, side {:trigger Fires(rows, i, side)} :: Latest(rows)[0].index < i < |rows| ==> !Fires(rows, i, side)
  {
    var all := Scan(rows, |rows|);
    var last := all[|all| - 1];
    ScanSound(rows, |rows|);
    ScanIncreasing(rows, |rows|);
    assert Justified(rows, |rows|, last);
    ScanComplete(rows, |rows|);
    forall i, side | last.index < i < |rows| ensures !Fires(rows, i, side) {
      AfterLastAbsent(all, Signal(i, rows[i].timestamp, side));
    }
  }

  /** The one-or-none signal a symbol's frame gives rise to. */
  function Latest(rows: seq<Row>): seq<Signal> {
    LastSignal(Scan(rows, |rows|))
  }
}

=== FILE: wrappers.dfy ===
/** Optional and failure-carrying values shared by the models of main.py and job.py. */
module Wrappers {

  /** A value that may be absent: an unset anchor, or a NaN entry of an indicator column. */
  datatype Option<+T> = None | Some(value: T) {

    /** The carried value, or `default` when absent. */
    function GetOr(default: T): T {
      match this
      case Some(v) => v
      case None => default
    }
  }

  /** The outcome of an operation that may raise. */
  datatype Result<+R, +E> = Success(value: R) | Failure(error: E)
}

/**
 * Python's comparisons against a NaN indicator entry, which is `None` here:
 * a comparison with NaN is false in every direction.
 */
module NanCompare {
  import opened Wrappers

  /** NaN-aware `a > b`: Python compares NaN as false in every direction. */
  predicate Exceeds(a: Option<real>, b: real) {
    a.Some? && a.value > b
  }

  /** NaN-aware `a < b`. */
  predicate Undercuts(a: Option<real>, b: real) {
    a.Some? && a.value < b
  }
}
